=== FILE: README.md ===
# Field standardization stage: a Dafny model

This project models the text handling of the field standardization agent in
the churn-analysis pipeline (`source_code/agents/agents.py`). The stage has
four steps:

- It cleans the raw DataFrame column names by cutting SQL table aliases,
  trimming and lower-casing.
- It asks a language model for two fenced code blocks: rename code, and a list
  of ambiguous fields.
- It pulls the blocks out of the reply, keeps only the mapping assignment of
  the rename code, and evaluates both.
- It reports which columns were mapped to an `unknown_` name and how many were
  mapped confidently.

The language model and Python's `exec` are not modelled as code. They are
parameters. `llm` maps the prompt inputs to a reply. The two evaluators map a
code block to `Option<…>`, where `None` means the code raised or left the name
unbound. In both cases the source falls back to the empty value, and so does
the model. A name bound to a value of the wrong type is not modelled (see
"## Left out").

Modules:

- `Wrappers`: `Option`.
- `Text`: ASCII `strip`, `lower`, `startswith`, and the first piece of `split`.
- `Dicts`: an insertion-ordered Python dict.
- `Aliases`: `preprocess_column_names`.
- `Fences`: `re.findall` for the fence pattern and the blank-block filter.
- `Tiers`: the `unknown_` and `ambiguous_` tiers, and the counts.
- `Agent`: the stage itself.

What the code does, and the model with it:

- Both alias substitutions run, one after the other, so `a.b.c` becomes `c`
  (`Aliases.CleanTwoAliasesExample`).
- The cleaned names live in a dict keyed by the raw name, so a repeated raw
  name collapses into one dict entry (`Aliases.PreprocessDistinctCount`).
- The `if rename_code` and `if ambiguous_code` guards are modelled as written.
  The first is always true, because the first kept block is never empty.
- On success the stage returns only its three output keys. On the no-block
  path it returns the whole incoming state with the three keys reset. The two
  cases are the two constructors of `Agent.StageUpdate`.

## Model

| member | source | states |
|---|---|---|
| Text.TrimIsSlice | source_code/agents/agents.py:108 | `strip()` returns a slice of its input, and everything cut off on either side of the slice is whitespace |
| Text.TrimFixpoint | source_code/agents/agents.py:111 | stripping an already stripped name changes nothing, so the second `strip()` is a no-op on a name without whitespace at either end |
| Text.TrimEmptyIffAllSpace | source_code/agents/agents.py:214 | a block strips to the empty string exactly when it is all whitespace, which is the case the comprehension filters out |
| Text.LowerPointwise | source_code/agents/agents.py:111 | `lower()` keeps the length and changes each character on its own: upper-case ASCII letters become lower case, and nothing else changes |
| Text.BeforeFirst | source_code/agents/agents.py:237 | the first piece of `split(sep)` is a prefix of the text; no separator starts inside it; it is the whole text exactly when the separator never occurs, and otherwise a separator follows it |
| Text.BeforeFirstFound | source_code/agents/agents.py:237 | if a separator that cannot overlap itself follows text that does not contain it, the first piece of the split is exactly that text |
| Aliases.WordAliasUnique | source_code/agents/agents.py:110 | at most one prefix of a name matches the word-alias pattern, because `.` is not a word character |
| Aliases.StripLetterAliasOf | source_code/agents/agents.py:109 | a leading ASCII letter followed by a dot is exactly what the single-letter substitution removes, whatever follows |
| Aliases.WordRunSpec | source_code/agents/agents.py:110 | the greedy `[a-zA-Z_]+` run covers only word characters and stops at the first non-word character |
| Aliases.StripWordAliasSpec | source_code/agents/agents.py:110 | the word-alias substitution cuts the prefix the pattern `^[a-zA-Z_]+\.` matches, and leaves the name unchanged when the pattern does not match |
| Aliases.StripWordAliasOf | source_code/agents/agents.py:110 | a leading run of word characters followed by a dot is exactly what the word-alias substitution removes |
| Aliases.CleanColumnName | source_code/agents/agents.py:107-111 | a cleaned name has no whitespace at either end and no upper-case letter |
| Aliases.CleanUnaliased | source_code/agents/agents.py:107-111 | a name with no alias prefix is only stripped and lower-cased |
| Aliases.CleanLetterThenWord | source_code/agents/agents.py:107-111 | for every name made of a one-letter alias, a word alias and a stripped remainder, both aliases are cut and only the remainder is kept, lower-cased |
| Aliases.CleanEmpty | source_code/agents/agents.py:107-111 | the empty name cleans to the empty name |
| Aliases.CleanTwoAliasesExample | source_code/agents/agents.py:109-110 | both substitutions apply in turn: `a.b.c` becomes `c` |
| Aliases.CleanSchemaQualified | source_code/agents/agents.py:109-111 | for `schema.table.col` with a schema longer than one letter, only the schema is cut and `table.col` is kept, lower-cased |
| Aliases.CleanDigitPrefixExample | source_code/agents/agents.py:109-110 | a digit in the prefix blocks both patterns, so `t1.x` keeps its dot |
| Aliases.CleanLetterAliasExample | source_code/agents/agents.py:107-111 | `T.MSISDN` loses its one-letter alias and becomes `msisdn` |
| Aliases.PreprocessColumnNames | source_code/agents/agents.py:105-113 | the result has exactly the raw names as keys, and each key maps to its cleaned name |
| Aliases.PreprocessFirstAppearanceOrder | source_code/agents/agents.py:106-112 | the keys are ordered by where each raw name first appears |
| Aliases.PreprocessDistinctCount | source_code/agents/agents.py:106-112 | there is one entry per distinct raw name |
| Aliases.PreprocessDuplicateExample | source_code/agents/agents.py:106-112 | the raw list `rev`, `rev` gives a dict with the single key `rev` |
| Aliases.PreprocessCollisionExample | source_code/agents/agents.py:106-112 | different raw names that clean to the same value keep separate entries |
| Dicts.AssignEach | source_code/agents/agents.py:106-112 | the loop's dict has exactly the looped-over keys, each mapped to its computed value |
| Fences.MatchAtIff | source_code/agents/agents.py:213 | the pattern matches at a position exactly when a fence starts there and another fence starts after it ends |
| Fences.ScanOrdered | source_code/agents/agents.py:213 | every match `findall` reports is a real match whose content stops at the first closing fence, and each match starts after the previous one's closing fence |
| Fences.ScanComplete | source_code/agents/agents.py:213 | `findall` skips no match: every position where the pattern can match either starts a reported match or lies inside an earlier one |
| Fences.ScanEmptyIff | source_code/agents/agents.py:213 | `findall` finds nothing exactly when the text does not contain two fences that do not overlap |
| Fences.RawBlocksNoFence | source_code/agents/agents.py:213 | no extracted group contains a fence |
| Fences.KeepNonBlankShape | source_code/agents/agents.py:214 | the filter keeps at most as many blocks as it was given, and every kept block is non-empty and stripped |
| Fences.KeepNonBlankEmptyIff | source_code/agents/agents.py:214 | the filter keeps nothing exactly when every group is whitespace only |
| Fences.KeepNonBlankAppend | source_code/agents/agents.py:214 | the filter handles its input piece by piece and preserves order |
| Fences.ExtractBlocks | source_code/agents/agents.py:213-214 | every extracted block is non-empty, stripped and fence-free; there are none exactly when every group is blank |
| Fences.NoFencePairNoBlocks | source_code/agents/agents.py:213-216 | a reply without two separate fences yields no block |
| Fences.ExtractRender | source_code/agents/agents.py:213-214 | blocks fenced as the prompt requests are extracted back exactly and in order, whatever backtick-free text comes before, between and after them (such as the blank line between the two blocks) |
| Tiers.TierOf | source_code/agents/agents.py:253-259 | a name is unknown exactly when it has the `unknown_` prefix, ambiguous exactly when it has the `ambiguous_` prefix, and confident exactly when it has neither |
| Tiers.PrefixesExclusive | source_code/agents/agents.py:259 | no name has both prefixes |
| Tiers.UnknownFields | source_code/agents/agents.py:253 | the unknown fields are exactly the keys whose value starts with `unknown_`, with no repeats, listed in the order of the mapping's keys |
| Tiers.KeysInTierOrder | source_code/agents/agents.py:253 | the keys of one tier are listed in the order the mapping holds them |
| Tiers.ConfidentCount | source_code/agents/agents.py:259 | the confident count is at most the number of keys, and equals it exactly when every value carries neither prefix |
| Tiers.CountTier | source_code/agents/agents.py:259 | a tier count is zero exactly when no value is in the tier, and is the full length exactly when every value is |
| Tiers.TierCountsPartition | source_code/agents/agents.py:253-259 | the confident, ambiguous and unknown counts of a list of values add up to its length |
| Tiers.TierKeysPartition | source_code/agents/agents.py:253-259 | the three tiers split the keys of the mapping into disjoint sets that together cover every key |
| Tiers.UnknownFieldsCount | source_code/agents/agents.py:253 | the number of unknown fields is the number of values with the `unknown_` prefix |
| Tiers.ConfidentCountKeys | source_code/agents/agents.py:259 | the confident count is the number of keys whose value has neither prefix |
| Tiers.ReportedCountsPartition | source_code/agents/agents.py:253-259 | the confident count, the ambiguous count and the number of unknown fields add up to the size of the mapping |
| Agent.CleanedColumns | source_code/agents/agents.py:124-126 | the column list shown to the model is, entry by entry, the cleaning of the distinct raw columns in the order they first appear (so a cleaned name repeats when two raw columns clean to it); each entry is stripped and lower case |
| Agent.GatherInputs | source_code/agents/agents.py:124-144 | the prompt is built from the cleaned columns of `df_columns`, which default to an empty list; the SQL query and dataset profile take their state values or `Not provided`, and the special rules take theirs or `None` |
| Agent.MapCode | source_code/agents/agents.py:237 | the map code is a prefix of the rename code that contains no `df = df.rename`; it is the whole rename code exactly when that call never occurs, and otherwise the first `df = df.rename` starts right after it |
| Agent.MapCodeOfTemplate | source_code/agents/agents.py:237 | for rename code in the requested layout, the map code is exactly the mapping assignment |
| Agent.ParseReply | source_code/agents/agents.py:213-242 | the stage degrades exactly when no block is found, and then keeps every other state field; otherwise the rename code is the first block, the map comes from evaluating its map code, and the ambiguous fields come from the second block if there is one and are empty if not |
| Agent.FieldStandardization | source_code/agents/agents.py:119-267 | whatever the model answers, a degraded result is the input state with the three outputs reset, and a parsed result carries non-empty, stripped, fence-free rename code |
| Agent.ExtraBlocksIgnored | source_code/agents/agents.py:220-221 | only the first two blocks matter: replies that agree on them produce the same update |
| Agent.NoFencesDegrades | source_code/agents/agents.py:213-218 | a reply without two separate fences takes the degraded path |
| Agent.SingleBlockReply | source_code/agents/agents.py:220-229 | a reply with a single block, whatever backtick-free text surrounds it, uses that block as the rename code and has no ambiguous fields |
| Agent.TemplateReply | source_code/agents/agents.py:213-240 | for a reply in the requested format (the rename block, a backtick-free gap such as a blank line, then the field-list block), the mapping is evaluated on the assignment alone and the field list on the second block |
| Agent.ReportOf | source_code/agents/agents.py:244-261 | only a parsed update produces a report; it gives the number of ambiguous records, exactly the keys mapped to `unknown_` names, and the number of confident keys, and these counts together with the ambiguous-name count add up to the size of the map |
| Agent.ExampleReport | source_code/agents/agents.py:213-261 | an example reply laid out as the prompt shows it, with a blank line between the blocks and holding a compliant three-column mapping, passes through unchanged and reports three confident names and no unknown field |

## Left out

- The language model call, its client settings and API key, and the prompt
  template text with its abbreviation, unit, date and schema constants. The
  model receives only the values filled into the prompt (`Agent.PromptInputs`)
  and treats the reply as an arbitrary string.
- `exec`. Running the two code blocks is an abstract evaluator from a block to
  an optional value. The model does not interpret Python code.
- The `print` calls. `Agent.ReportOf` models the figures the stage prints for
  human review.
- Unicode beyond ASCII. `strip` and `isspace` cover ASCII whitespace, and
  `lower` maps only `A`-`Z`.
- Map values that are not strings, and malformed ambiguous-field records. The
  source would raise on `startswith` for such values. The model's map has
  string values only.
- A state key present with the value `None`. The model treats an absent key
  and its default as the only alternatives to a present string.
- The "no duplicate values" and "never drop columns" rules in the prompt. The
  source asks the model for them but does not check them.
- A `rename_map` that the map code binds to something other than a dict
  (`None`, a list), or a dict with non-string keys. The source keeps it, and
  then raises an uncaught error at line 253 when it iterates over its items.
  The map evaluator's type yields a string-to-string dict or nothing, so it
  cannot express this case.
- An `ambiguous_fields` that the second block binds to `None` or to a
  non-list. The source returns it as it is. The fields evaluator's type
  yields a list of records or nothing.
- The pipeline graph and the state type declaration (`source_code/graph.py`,
  `source_code/state.py`). The stage is modelled on its own.
- Fences.ExtractRender: states the round trip only for replies whose text
  outside the blocks has no backticks. A backtick there, such as inline code in
  the prose, can open a fence of its own, and then the blocks found depend on
  where it stands.

=== FILE: agent.dfy ===
/**
  The field standardization stage (source_code/agents/agents.py, lines
  119-267): it cleans the raw column names, asks the language model for
  two fenced code blocks, and reads the rename code, the rename mapping and
  the ambiguous-field records back out of the reply.

  The language model and Python's `exec` are parameters: `llm` turns the
  prompt inputs into a reply, and the two evaluators stand for running a
  code block in a fresh namespace and reading one name back out of it,
  giving `None` when the code raises or leaves the name unbound.
 */
module Agent {
  import opened Wrappers
  import opened Text
  import opened Dicts
  import opened Aliases
  import opened Fences
  import opened Tiers

  /** One renaming decision the model could not resolve confidently. */
  datatype AmbiguousField = AmbiguousField(
    originalColumn: string,
    candidates: seq<string>,
    reason: string,
    sampleValues: string)

  /**
    The pipeline state as the stage sees it: the keys it reads with a
    default, the three keys it writes, and `others` for every remaining key,
    which the stage never inspects.
   */
  datatype AgentState<R> = AgentState(
    dfColumns: Option<seq<string>>,
    sqlQuery: Option<string>,
    metadataSummary: Option<string>,
    specialRules: Option<string>,
    cleaningCode: Option<string>,
    ambiguousFields: Option<seq<AmbiguousField>>,
    columnMap: Option<PyDict>,
    others: R)

  /** What the prompt is built from: the cleaned column names and three state entries or their defaults. */
  datatype PromptInputs = PromptInputs(
    columns: seq<string>,
    sqlQuery: string,
    metadataSummary: string,
    specialRules: string)

  /**
    What the stage returns. With no usable block it hands back the whole
    state with the three outputs reset; otherwise it returns the three
    outputs alone.
   */
  datatype StageUpdate<R> =
    | Degraded(state: AgentState<R>)
    | Parsed(cleaningCode: string, ambiguousFields: seq<AmbiguousField>, columnMap: PyDict)

  /** Running the map code and reading `rename_map` back. */
  type MapEvaluator = string -> Option<PyDict>

  /** Running the second block and reading `ambiguous_fields` back. */
  type FieldsEvaluator = string -> Option<seq<AmbiguousField>>

  const EmptyDict: PyDict := Dict([], map[])

  /** The text the map code is cut off at, so that only the mapping literal runs. */
  const RenameCall: string := "df = df.rename"

  /**
    `columns` is, entry by entry, the cleaning of `keys`: the distinct raw
    columns in the order in which they first appear.
   */
  ghost predicate CleanedFrom(columns: seq<string>, raw: seq<string>, keys: seq<string>) {
    && Distinct(keys)
    && (forall c :: c in keys <==> c in raw)
    && FirstAppearanceOrder(keys, raw)
    && |keys| == |columns|
    && (forall i :: 0 <= i < |columns| ==> columns[i] == CleanColumnName(keys[i]))
  }

  /**
    The cleaned names shown to the model: one per distinct raw column, in the
    order the raw columns first appear, each trimmed and in lower case.
   */
  ghost predicate CleanedColumnsOf(columns: seq<string>, raw: seq<string>) {
    && (exists keys :: CleanedFrom(columns, raw, keys))
    && |columns| == |set c | c in raw|
    && (forall c :: c in raw ==> CleanColumnName(c) in columns)
    && (forall i :: 0 <= i < |columns| ==>
          && IsTrimmed(columns[i])
          && (forall j :: 0 <= j < |columns[i]| ==> !IsUpper(columns[i][j]))
          && exists c :: c in raw && CleanColumnName(c) == columns[i])
  }

  /** Each cleaned name shown is the cleaning of a raw column. */
  lemma CleanedColumnsSound(raw: seq<string>)
    ensures var vs := Values(PreprocessColumnNames(raw));
      forall i :: 0 <= i < |vs| ==>
        && IsTrimmed(vs[i])
        && (forall j :: 0 <= j < |vs[i]| ==> !IsUpper(vs[i][j]))
        && exists c :: c in raw && CleanColumnName(c) == vs[i]
  {
    var d := PreprocessColumnNames(raw);
    var vs := Values(d);
    forall i | 0 <= i < |vs|
      ensures d.keys[i] in raw && vs[i] == CleanColumnName(d.keys[i])
    {
    }
  }

  /** Every raw column's cleaning is shown. */
  lemma CleanedColumnsComplete(raw: seq<string>)
    ensures forall c :: c in raw ==> CleanColumnName(c) in Values(PreprocessColumnNames(raw))
  {
    var d := PreprocessColumnNames(raw);
    var vs := Values(d);
    forall c | c in raw
      ensures CleanColumnName(c) in vs
    {
      var i :| 0 <= i < |d.keys| && d.keys[i] == c;
      assert vs[i] == CleanColumnName(c);
    }
  }

  /** The values of the preprocessed dict are the cleanings of its keys, which are the raw columns in first-appearance order. */
  lemma CleanedColumnsInOrder(raw: seq<string>)
    ensures CleanedFrom(Values(PreprocessColumnNames(raw)), raw, PreprocessColumnNames(raw).keys)
  {
    PreprocessFirstAppearanceOrder(raw);
  }

  /** `list(pre_cleaned.values())` holds the cleaned names of the raw columns. */
  lemma CleanedColumns(raw: seq<string>)
    ensures CleanedColumnsOf(Values(PreprocessColumnNames(raw)), raw)
  {
    PreprocessDistinctCount(raw);
    CleanedColumnsInOrder(raw);
    CleanedColumnsSound(raw);
    CleanedColumnsComplete(raw);
  }

  /** The prompt inputs: the cleaned columns, and each state entry or its default. */
  function GatherInputs<R>(state: AgentState<R>): (p: PromptInputs)
    ensures CleanedColumnsOf(p.columns, state.dfColumns.GetOr([]))
    ensures p.sqlQuery == state.sqlQuery.GetOr("Not provided")
    ensures p.metadataSummary == state.metadataSummary.GetOr("Not provided")
    ensures p.specialRules == state.specialRules.GetOr("None")
  {
    var raw := state.dfColumns.GetOr([]);
    CleanedColumns(raw);
    PromptInputs(
      Values(PreprocessColumnNames(raw)),
      state.sqlQuery.GetOr("Not provided"),
      state.metadataSummary.GetOr("Not provided"),
      state.specialRules.GetOr("None"))
  }

  /** The rename separator cannot overlap itself. */
  lemma RenameCallUnbordered()
    ensures Unbordered(RenameCall)
  {
    var sep := RenameCall;
    forall k | 0 < k < |sep|
      ensures sep[k..] != sep[..|sep| - k]
    {
      if k == 5 {
        assert sep[k..][2] != sep[..|sep| - k][2];
      } else {
        assert sep[k..][0] != sep[..|sep| - k][0];
      }
    }
  }

  /** `split("df = df.rename")[0]`: the rename code up to the first rename call, or all of it. */
  function MapCode(renameCode: string): (c: string)
    ensures StartsWith(renameCode, c)
    ensures forall i :: 0 <= i < |c| ==> !OccursAt(renameCode, RenameCall, i)
    ensures c == renameCode || OccursAt(renameCode, RenameCall, |c|)
    ensures c == renameCode <==> forall i :: !OccursAt(renameCode, RenameCall, i)
  {
    BeforeFirst(renameCode, RenameCall)
  }

  /** On a block laid out as the prompt asks, the map code is exactly the mapping assignment. */
  lemma MapCodeOfTemplate(assignment: string, call: string)
    requires forall i :: !OccursAt(assignment, RenameCall, i)
    ensures MapCode(assignment + RenameCall + call) == assignment
  {
    RenameCallUnbordered();
    BeforeFirstFound(assignment, RenameCall, call);
  }

  /** The stage once the reply is in. */
  function ParseReply<R>(state: AgentState<R>, reply: string, evalMap: MapEvaluator, evalFields: FieldsEvaluator): (u: StageUpdate<R>)
    ensures var blocks := ExtractBlocks(reply);
      && (u.Degraded? <==> blocks == [])
      && (u.Parsed? ==> u.cleaningCode == blocks[0])
      && (u.Parsed? ==> u.columnMap == evalMap(MapCode(blocks[0])).GetOr(EmptyDict))
      && (u.Parsed? && |blocks| == 1 ==> u.ambiguousFields == [])
      && (u.Parsed? && |blocks| >= 2 ==> u.ambiguousFields == evalFields(blocks[1]).GetOr([]))
    ensures u.Degraded? ==>
      && u.state.cleaningCode == Some("")
      && u.state.ambiguousFields == Some([])
      && u.state.columnMap == Some(EmptyDict)
      && u.state.dfColumns == state.dfColumns
      && u.state.sqlQuery == state.sqlQuery
      && u.state.metadataSummary == state.metadataSummary
      && u.state.specialRules == state.specialRules
      && u.state.others == state.others
  {
    var blocks := ExtractBlocks(reply);
    if blocks == [] then
      Degraded(state.(cleaningCode := Some(""), ambiguousFields := Some([]), columnMap := Some(EmptyDict)))
    else
      assert blocks[0] in blocks;
      assert |blocks| >= 2 ==> blocks[1] in blocks;
      var renameCode := if |blocks| >= 1 then blocks[0] else "";
      var ambiguousCode := if |blocks| >= 2 then blocks[1] else "";
      var fields := if ambiguousCode != "" then evalFields(ambiguousCode).GetOr([]) else [];
      var columnMap := if renameCode != "" then evalMap(MapCode(renameCode)).GetOr(EmptyDict) else EmptyDict;
      Parsed(renameCode, fields, columnMap)
  }

  /**
    `field_standardization_agent`: build the inputs, ask the model, parse its
    reply. Whatever the model answers, a degraded update is the input state
    with the three outputs reset, and a parsed one carries usable rename code.
   */
  function FieldStandardization<R>(
    state: AgentState<R>, llm: PromptInputs -> string, evalMap: MapEvaluator, evalFields: FieldsEvaluator
  ): (u: StageUpdate<R>)
    ensures u.Degraded? ==> u.state == state.(cleaningCode := Some(""), ambiguousFields := Some([]), columnMap := Some(EmptyDict))
    ensures u.Parsed? ==> u.cleaningCode != [] && IsTrimmed(u.cleaningCode) && NoFence(u.cleaningCode)
  {
    ParseReply(state, llm(GatherInputs(state)), evalMap, evalFields)
  }

  /** Only the first two blocks matter: replies that agree on them give the same update. */
  lemma ExtraBlocksIgnored<R>(state: AgentState<R>, r1: string, r2: string, evalMap: MapEvaluator, evalFields: FieldsEvaluator)
    requires |ExtractBlocks(r1)| >= 2 && |ExtractBlocks(r2)| >= 2
    requires ExtractBlocks(r1)[..2] == ExtractBlocks(r2)[..2]
    ensures ParseReply(state, r1, evalMap, evalFields) == ParseReply(state, r2, evalMap, evalFields)
  {
    assert ExtractBlocks(r1)[0] == ExtractBlocks(r1)[..2][0];
    assert ExtractBlocks(r1)[1] == ExtractBlocks(r1)[..2][1];
  }

  /** A reply without two separate fences degrades to the reset state. */
  lemma NoFencesDegrades<R>(state: AgentState<R>, reply: string, evalMap: MapEvaluator, evalFields: FieldsEvaluator)
    requires !HasFencePair(reply, 0)
    ensures ParseReply(state, reply, evalMap, evalFields).Degraded?
  {
    NoFencePairNoBlocks(reply);
  }

  /** A reply holding exactly one block gives that block as the rename code and no ambiguous fields. */
  lemma SingleBlockReply<R>(
    state: AgentState<R>, prose: string, b: string, trailer: string, evalMap: MapEvaluator, evalFields: FieldsEvaluator)
    requires Plain(prose) && Plain(trailer)
    requires Renderable(b)
    ensures ParseReply(state, prose + Render([b], [trailer]), evalMap, evalFields)
      == Parsed(b, [], evalMap(MapCode(b)).GetOr(EmptyDict))
  {
    ExtractRender(prose, [b], [trailer]);
  }

  /**
    A reply in the requested format: a mapping assignment followed by the
    rename call, then, after a stretch of plain text such as a blank line,
    the ambiguous-field list. The mapping is evaluated on the assignment
    alone, and the list on the second block.
   */
  lemma TemplateReply<R>(
    state: AgentState<R>, prose: string, assignment: string, call: string, between: string,
    fieldsCode: string, trailer: string, evalMap: MapEvaluator, evalFields: FieldsEvaluator)
    requires Plain(prose) && Plain(between) && Plain(trailer)
    requires forall i :: !OccursAt(assignment, RenameCall, i)
    requires Renderable(assignment + RenameCall + call) && Renderable(fieldsCode)
    ensures ParseReply(state, prose + Render([assignment + RenameCall + call, fieldsCode], [between, trailer]), evalMap, evalFields)
      == Parsed(assignment + RenameCall + call, evalFields(fieldsCode).GetOr([]), evalMap(assignment).GetOr(EmptyDict))
  {
    ExtractRender(prose, [assignment + RenameCall + call, fieldsCode], [between, trailer]);
    MapCodeOfTemplate(assignment, call);
  }

  /** What the stage reports for human review, computed from what it returns. */
  datatype Report = Report(ambiguousCount: nat, unknownFields: seq<string>, confidentCount: nat)

  /**
    The diagnostics of a parsed update: the number of ambiguous records,
    the keys mapped to an `unknown_` name, and the count of confident names.
   */
  function ReportOf<R>(u: StageUpdate<R>): (rep: Option<Report>)
    ensures rep.Some? <==> u.Parsed?
    ensures u.Parsed? ==>
      && rep.value.ambiguousCount == |u.ambiguousFields|
      && (forall k :: k in rep.value.unknownFields <==> k in u.columnMap.entries && StartsWith(u.columnMap.entries[k], UnknownPrefix))
      && rep.value.confidentCount == |TierKeys(u.columnMap, Confident)|
      && rep.value.confidentCount + CountTier(Values(u.columnMap), Ambiguous) + |rep.value.unknownFields| == |u.columnMap.entries|
  {
    match u
    case Degraded(_) => None
    case Parsed(_, fields, m) =>
      ConfidentCountKeys(m);
      ReportedCountsPartition(m);
      Some(Report(|fields|, UnknownFields(m), ConfidentCount(m)))
  }

  /** The compliant mapping of the example columns `t.msisdn`, `rev_l30d` and `dob`. */
  function ExampleMap(): PyDict {
    Dict(
      ["t.msisdn", "rev_l30d", "dob"],
      map["t.msisdn" := "Msisdn", "rev_l30d" := "RevenueLast30d", "dob" := "BirthDate"])
  }

  /** The example mapping has three confident names and no unknown field. */
  lemma ExampleMapTiers()
    ensures UnknownFields(ExampleMap()) == []
    ensures ConfidentCount(ExampleMap()) == 3
  {
    var m := ExampleMap();
    assert TierOf(m.entries["t.msisdn"]) == Confident by {
      assert !StartsWith("Msisdn", UnknownPrefix) && !StartsWith("Msisdn", AmbiguousPrefix);
    }
    assert TierOf(m.entries["rev_l30d"]) == Confident by {
      assert "RevenueLast30d"[0] == 'R';
    }
    assert TierOf(m.entries["dob"]) == Confident by {
      assert "BirthDate"[0] == 'B';
    }
  }

  /**
    For the example mapping, sent as the prompt lays it out with a blank line
    between the blocks, the stage returns the mapping unchanged and reports
    three confident names and no unknown one.
   */
  lemma ExampleReport(assignment: string, call: string, evalMap: MapEvaluator, fieldsCode: string, evalFields: FieldsEvaluator)
    requires forall i :: !OccursAt(assignment, RenameCall, i)
    requires Renderable(assignment + RenameCall + call) && Renderable(fieldsCode)
    requires evalMap(assignment) == Some(ExampleMap()) && evalFields(fieldsCode) == Some([])
    ensures var u := ParseReply(AgentState(None, None, None, None, None, None, None, ()),
      Render([assignment + RenameCall + call, fieldsCode], ["\n\n", ""]), evalMap, evalFields);
      && u == Parsed(assignment + RenameCall + call, [], ExampleMap())
      && ReportOf(u) == Some(Report(0, [], 3))
  {
    var st := AgentState(None, None, None, None, None, None, None, ());
    var reply := Render([assignment + RenameCall + call, fieldsCode], ["\n\n", ""]);
    TemplateReply(st, "", assignment, call, "\n\n", fieldsCode, "", evalMap, evalFields);
    assert "" + reply == reply;
    ExampleMapTiers();
  }
}

=== FILE: aliases.dfy ===
/**
  Pre-cleaning of raw column names before they are shown to the language
  model: SQL table aliases (`t.msisdn`, `cust.arpu`) are cut off, the name is
  trimmed and lower-cased, and the results are collected in a dict keyed by
  the raw name (source_code/agents/agents.py, `preprocess_column_names`).
 */
module Aliases {
  import opened Text
  import opened Dicts

  /** The character class `[a-zA-Z]`; Python's `re` reads it as ASCII only. */
  predicate IsAsciiLetter(c: char) {
    'a' <= c <= 'z' || 'A' <= c <= 'Z'
  }

  /** The character class `[a-zA-Z_]`. */
  predicate IsWordChar(c: char) {
    IsAsciiLetter(c) || c == '_'
  }

  /** `^[a-zA-Z]\.` matches at the start of `s`; such a match is always two characters long. */
  predicate HasLetterAlias(s: string) {
    |s| >= 2 && IsAsciiLetter(s[0]) && s[1] == '.'
  }

  /** The first `n` characters of `s` are matched in full by `[a-zA-Z_]+\.` */
  predicate WordAliasOfLength(s: string, n: nat) {
    2 <= n <= |s| && s[n - 1] == '.' && forall i :: 0 <= i < n - 1 ==> IsWordChar(s[i])
  }

  /** Since `.` is outside `[a-zA-Z_]`, at most one prefix of a string is a word alias. */
  lemma WordAliasUnique(s: string, n1: nat, n2: nat)
    requires WordAliasOfLength(s, n1) && WordAliasOfLength(s, n2)
    ensures n1 == n2
  {
  }

  /** A letter alias is a word alias of length two. */
  lemma LetterAliasIsWordAlias(s: string)
    requires HasLetterAlias(s)
    ensures WordAliasOfLength(s, 2)
  {
  }

  /** `re.sub(r'^[a-zA-Z]\.', '', s)` */
  function StripLetterAlias(s: string): string {
    if HasLetterAlias(s) then s[2..] else s
  }

  /** A leading letter and a dot is what the letter-alias substitution cuts. */
  lemma StripLetterAliasOf(c: char, rest: string)
    requires IsAsciiLetter(c)
    ensures StripLetterAlias([c] + "." + rest) == rest
  {
    var s := [c] + "." + rest;
    assert s[0] == c && s[1] == '.' && s[2..] == rest;
  }

  /** The end of the run of `[a-zA-Z_]` characters starting at `from`. */
  function WordRun(s: string, from: nat): (j: nat)
    requires from <= |s|
    ensures from <= j <= |s|
    decreases |s| - from
  {
    if from == |s| || !IsWordChar(s[from]) then from else WordRun(s, from + 1)
  }

  /** The run ends at the first character outside `[a-zA-Z_]`, or at the end of `s`. */
  lemma {:induction false} WordRunSpec(s: string, from: nat)
    requires from <= |s|
    ensures forall i :: from <= i < WordRun(s, from) ==> IsWordChar(s[i])
    ensures WordRun(s, from) < |s| ==> !IsWordChar(s[WordRun(s, from)])
    decreases |s| - from
  {
    if from < |s| && IsWordChar(s[from]) {
      WordRunSpec(s, from + 1);
    }
  }

  /** A run of `k` word characters from `from`, ended by a non-word character or the end, is the run `WordRun` finds. */
  lemma {:induction false} WordRunOf(s: string, from: nat, k: nat)
    requires from <= k <= |s|
    requires forall i :: from <= i < k ==> IsWordChar(s[i])
    requires k == |s| || !IsWordChar(s[k])
    ensures WordRun(s, from) == k
    decreases k - from
  {
    if from < k {
      WordRunOf(s, from + 1, k);
    }
  }

  /**
    `re.sub(r'^[a-zA-Z_]+\.', '', s)`: the greedy `+` runs to the end of the
    word characters, and the match succeeds only when a dot follows them.
   */
  function StripWordAlias(s: string): string {
    var k := WordRun(s, 0);
    if 0 < k < |s| && s[k] == '.' then s[k + 1..] else s
  }

  /** A leading run of word characters and a dot is what the word-alias substitution cuts. */
  lemma StripWordAliasOf(w: string, rest: string)
    requires w != [] && forall i :: 0 <= i < |w| ==> IsWordChar(w[i])
    ensures StripWordAlias(w + "." + rest) == rest
  {
    var s := w + "." + rest;
    WordRunOf(s, 0, |w|);
    assert s[|w| + 1..] == rest;
  }

  /** The word-alias substitution drops the matching prefix if there is one, else keeps `s`. */
  lemma StripWordAliasSpec(s: string)
    ensures || (exists n: nat :: WordAliasOfLength(s, n) && StripWordAlias(s) == s[n..])
            || (StripWordAlias(s) == s && forall n: nat :: !WordAliasOfLength(s, n))
  {
    var k := WordRun(s, 0);
    WordRunSpec(s, 0);
    if 0 < k < |s| && s[k] == '.' {
      assert WordAliasOfLength(s, k + 1);
    } else {
      forall n: nat | WordAliasOfLength(s, n)
        ensures false
      {
      }
    }
  }

  /**
    One raw column name cleaned: trimmed, a single-letter alias cut, then a
    word alias cut, trimmed again and lower-cased.
   */
  function CleanColumnName(raw: string): (c: string)
    ensures IsTrimmed(c)
    ensures forall i :: 0 <= i < |c| ==> !IsUpper(c[i])
  {
    var t := Trim(StripWordAlias(StripLetterAlias(Trim(raw))));
    LowerKeepsTrimmed(t);
    Lower(t)
  }

  /** A name without an alias prefix is only trimmed and lower-cased. */
  lemma CleanUnaliased(raw: string)
    requires forall n: nat :: !WordAliasOfLength(Trim(raw), n)
    ensures CleanColumnName(raw) == Lower(Trim(raw))
  {
    var t := Trim(raw);
    if HasLetterAlias(t) {
      LetterAliasIsWordAlias(t);
    }
    StripWordAliasSpec(t);
    TrimFixpoint(t);
  }

  /** The cleaning pipeline, one stage at a time, for a name without surrounding whitespace. */
  lemma CleanSteps(raw: string, noLetter: string, noWord: string, lowered: string)
    requires IsTrimmed(raw)
    requires StripLetterAlias(raw) == noLetter
    requires StripWordAlias(noLetter) == noWord
    requires IsTrimmed(noWord)
    requires Lower(noWord) == lowered
    ensures CleanColumnName(raw) == lowered
  {
    TrimFixpoint(raw);
    TrimFixpoint(noWord);
  }

  /** Without a dot there is no word alias to cut. */
  lemma StripWordAliasNoDot(s: string)
    requires forall i :: 0 <= i < |s| ==> s[i] != '.'
    ensures StripWordAlias(s) == s
  {
  }

  lemma CleanEmpty()
    ensures CleanColumnName("") == ""
  {
    CleanSteps("", "", "", "");
  }

  /** `T.MSISDN` loses its single-letter alias and is lower-cased. */
  lemma CleanLetterAliasExample()
    ensures CleanColumnName("T.MSISDN") == "msisdn"
  {
    StripWordAliasNoDot("MSISDN");
    LowerPointwise("MSISDN");
    assert forall i :: 0 <= i < 6 ==> Lower("MSISDN")[i] == "msisdn"[i];
    CleanSteps("T.MSISDN", "MSISDN", "MSISDN", "msisdn");
  }

  /** Both substitutions run: `a.b.c` loses `a.` and then `b.`. */
  lemma CleanTwoAliasesExample()
    ensures CleanColumnName("a.b.c") == "c"
  {
    assert WordRun("b.c", 0) == 1;
    LowerFixpoint("c");
    CleanSteps("a.b.c", "b.c", "c", "c");
  }

  /**
    A one-letter alias followed by a word alias loses both: the letter
    substitution cuts `c.`, then the word substitution cuts `w.`.
   */
  lemma CleanLetterThenWord(c: char, w: string, rest: string)
    requires IsAsciiLetter(c)
    requires w != [] && forall i :: 0 <= i < |w| ==> IsWordChar(w[i])
    requires rest != [] && IsTrimmed(rest)
    ensures CleanColumnName([c] + "." + w + "." + rest) == Lower(rest)
  {
    var tail := w + "." + rest;
    var raw := [c] + "." + tail;
    assert [c] + "." + w + "." + rest == raw;
    assert raw[|raw| - 1] == rest[|rest| - 1];
    StripLetterAliasOf(c, tail);
    StripWordAliasOf(w, rest);
    CleanSteps(raw, tail, rest, Lower(rest));
  }

  /**
    Only one word alias is cut: in `schema.table.col` the schema goes and
    `table.` stays. The schema name is longer than one letter, so the
    single-letter pattern does not apply first.
   */
  lemma CleanSchemaQualified(schema: string, table: string, col: string)
    requires |schema| >= 2 && forall i :: 0 <= i < |schema| ==> IsWordChar(schema[i])
    requires table != [] && forall i :: 0 <= i < |table| ==> IsWordChar(table[i])
    requires col != [] && IsTrimmed(col)
    ensures CleanColumnName(schema + "." + table + "." + col) == Lower(table + "." + col)
  {
    var rest := table + "." + col;
    var raw := schema + "." + rest;
    QualifiedParts(schema, table, col);
    StripWordAliasOf(schema, rest);
    CleanSteps(raw, raw, rest, Lower(rest));
  }

  /** The pieces of a schema-qualified name: where its ends come from. */
  lemma QualifiedParts(schema: string, table: string, col: string)
    requires |schema| >= 2 && table != [] && col != []
    ensures var rest := table + "." + col;
      && schema + "." + table + "." + col == schema + "." + rest
      && (schema + "." + rest)[0] == schema[0]
      && (schema + "." + rest)[1] == schema[1]
      && (schema + "." + rest)[|schema| + |rest|] == col[|col| - 1]
      && rest[0] == table[0]
      && rest[|rest| - 1] == col[|col| - 1]
  {
  }

  /** A digit in the prefix blocks both patterns: `t1.x` keeps its dot. */
  lemma CleanDigitPrefixExample()
    ensures CleanColumnName("t1.x") == "t1.x"
  {
    assert WordRun("t1.x", 0) == 1;
    LowerFixpoint("t1.x");
    CleanSteps("t1.x", "t1.x", "t1.x", "t1.x");
  }

  /**
    `preprocess_column_names`: a left-to-right pass that assigns
    `cleaned[col] = CleanColumnName(col)` for every raw name.
   */
  function PreprocessColumnNames(columns: seq<string>): (cleaned: PyDict)
    ensures forall k :: k in cleaned.entries <==> k in columns
    ensures forall k :: k in cleaned.entries ==> cleaned.entries[k] == CleanColumnName(k)
  {
    AssignEach(columns, CleanColumnName)
  }

  /** The keys are the raw names in the order in which they first appear. */
  lemma PreprocessFirstAppearanceOrder(columns: seq<string>)
    ensures FirstAppearanceOrder(PreprocessColumnNames(columns).keys, columns)
  {
    AssignEachFirstAppearanceOrder(columns, CleanColumnName);
  }

  /** One entry per distinct raw name: a repeated name collapses into one key. */
  lemma PreprocessDistinctCount(columns: seq<string>)
    ensures |PreprocessColumnNames(columns).keys| == |set c | c in columns|
  {
    AssignEachDistinctCount(columns, CleanColumnName);
  }

  /** Repeated raw names collapse into a single dict entry. */
  lemma PreprocessDuplicateExample()
    ensures PreprocessColumnNames(["rev", "rev"]).keys == ["rev"]
  {
    assert ["rev", "rev"][..1] == ["rev"];
    assert PreprocessColumnNames(["rev"]).keys == ["rev"];
  }

  lemma CleanIdExamples()
    ensures CleanColumnName("t.id") == "id" && CleanColumnName("id") == "id"
  {
    StripWordAliasNoDot("id");
    LowerFixpoint("id");
    CleanSteps("t.id", "id", "id", "id");
    CleanSteps("id", "id", "id", "id");
  }

  /** Distinct raw names may clean to the same value; both entries stay. */
  lemma PreprocessCollisionExample()
    ensures var cleaned := PreprocessColumnNames(["t.id", "id"]);
      && "t.id" in cleaned.entries && "id" in cleaned.entries
      && cleaned.entries["t.id"] == cleaned.entries["id"] == "id"
  {
    CleanIdExamples();
    var cols := ["t.id", "id"];
    assert "t.id" in cols && "id" in cols;
  }
}

=== FILE: dicts.dfy ===
/**
  A Python `dict` from strings to strings: the keys in insertion order
  together with the mapping itself.
 */
module Dicts {

  predicate Distinct(s: seq<string>) {
    forall i, j :: 0 <= i < j < |s| ==> s[i] != s[j]
  }

  datatype Dict = Dict(keys: seq<string>, entries: map<string, string>) {
    /** Every key of the mapping is listed exactly once. */
    ghost predicate Valid() {
      Distinct(keys) && (forall k :: k in entries <==> k in keys)
    }
  }

  /** A dict value as Python holds one: every key listed exactly once, in insertion order. */
  type PyDict = d: Dict | d.Valid() witness Dict([], map[])

  /**
    `d[k] = v`: an existing key keeps its place and takes the new value,
    a new key is appended at the end.
   */
  function Put(d: PyDict, k: string, v: string): (r: PyDict)
    ensures r.keys == if k in d.entries then d.keys else d.keys + [k]
    ensures r.entries == d.entries[k := v]
  {
    Dict(if k in d.entries then d.keys else d.keys + [k], d.entries[k := v])
  }

  /** The dict a loop `for k in ks: d[k] = f(k)` builds from an empty dict. */
  function AssignEach(ks: seq<string>, f: string -> string): (d: PyDict)
    ensures forall k :: k in d.entries <==> k in ks
    ensures forall k :: k in d.entries ==> d.entries[k] == f(k)
    decreases |ks|
  {
    if ks == [] then Dict([], map[])
    else
      var init, k := ks[..|ks| - 1], ks[|ks| - 1];
      assert ks == init + [k];
      Put(AssignEach(init, f), k, f(k))
  }

  /** Where `x` first appears in `s`. */
  function FirstIndex(s: seq<string>, x: string): (i: nat)
    requires x in s
    ensures i < |s| && s[i] == x && x !in s[..i]
  {
    if s[0] == x then 0 else 1 + FirstIndex(s[1..], x)
  }

  lemma FirstIndexExtend(s: seq<string>, y: string, x: string)
    requires x in s
    ensures FirstIndex(s + [y], x) == FirstIndex(s, x)
  {
    if s[0] != x {
      assert (s + [y])[1..] == s[1..] + [y];
      FirstIndexExtend(s[1..], y, x);
    }
  }

  /** Keys are laid out in the order in which they first appear in `ks`. */
  ghost predicate FirstAppearanceOrder(keys: seq<string>, ks: seq<string>)
    requires forall k :: k in keys ==> k in ks
  {
    forall i, j :: 0 <= i < j < |keys| ==> FirstIndex(ks, keys[i]) < FirstIndex(ks, keys[j])
  }

  /** Appending a key to the input keeps the order; a new key may go last. */
  lemma FirstAppearanceOrderExtend(keys: seq<string>, ks: seq<string>, k: string)
    requires forall x :: x in keys ==> x in ks
    requires FirstAppearanceOrder(keys, ks)
    ensures forall x :: x in keys ==> x in ks + [k]
    ensures FirstAppearanceOrder(keys, ks + [k])
    ensures k !in ks ==> FirstAppearanceOrder(keys + [k], ks + [k])
  {
    forall x | x in keys
      ensures FirstIndex(ks + [k], x) == FirstIndex(ks, x)
    {
      FirstIndexExtend(ks, k, x);
    }
    if k !in ks {
      var keys', ks' := keys + [k], ks + [k];
      forall i, j | 0 <= i < j < |keys'|
        ensures FirstIndex(ks', keys'[i]) < FirstIndex(ks', keys'[j])
      {
        assert keys'[i] == keys[i];
        if j < |keys| {
          assert keys'[j] == keys[j];
        }
      }
    }
  }

  /** The loop lays its keys out in the order in which they first appear in `ks`. */
  lemma {:induction false} AssignEachFirstAppearanceOrder(ks: seq<string>, f: string -> string)
    ensures FirstAppearanceOrder(AssignEach(ks, f).keys, ks)
    decreases |ks|
  {
    if ks != [] {
      var init, k := ks[..|ks| - 1], ks[|ks| - 1];
      assert ks == init + [k];
      AssignEachFirstAppearanceOrder(init, f);
      FirstAppearanceOrderExtend(AssignEach(init, f).keys, init, k);
    }
  }

  /** One entry per distinct key: a repeated key collapses into a single entry. */
  lemma {:induction false} AssignEachDistinctCount(ks: seq<string>, f: string -> string)
    ensures |AssignEach(ks, f).keys| == |set k | k in ks|
    decreases |ks|
  {
    if ks != [] {
      var init, k := ks[..|ks| - 1], ks[|ks| - 1];
      assert ks == init + [k];
      AssignEachDistinctCount(init, f);
      var before, after := set x | x in init, set x | x in ks;
      assert after == before + {k};
      if k in init {
        assert after == before;
      } else {
        assert k !in before;
        assert |after| == |before| + 1;
      }
    }
  }
}

=== FILE: fences.dfy ===
/**
  Extraction of fenced code blocks from the model's reply
  (source_code/agents/agents.py, lines 213-214). The source finds every
  non-overlapping match of a fence, an optional `python` tag, the shortest
  content, and a closing fence, with `.` also matching newlines; it then
  trims each content and drops the blank ones.

  The regular expression is modelled by a hand-written left-to-right scanner.
  At each position it tries an opening fence, skips a `python` tag when one
  follows, and takes the content up to the next fence; a match resumes the
  scan after its closing fence, a failed attempt moves on by one character.
 */
module Fences {
  import opened Wrappers
  import opened Text

  const Fence: string := "```"
  const Tag: string := "python"

  /** Three backticks start at position `i` of `s`. */
  predicate FenceAt(s: string, i: int) {
    0 <= i && i + 3 <= |s| && s[i] == '`' && s[i + 1] == '`' && s[i + 2] == '`'
  }

  /** The tag `python` starts at position `i` of `s`. */
  predicate TagAt(s: string, i: int) {
    && 0 <= i && i + 6 <= |s|
    && s[i] == 'p' && s[i + 1] == 'y' && s[i + 2] == 't'
    && s[i + 3] == 'h' && s[i + 4] == 'o' && s[i + 5] == 'n'
  }

  /** The string holds no fence anywhere. */
  predicate NoFence(s: string) {
    forall i :: 0 <= i < |s| ==> !FenceAt(s, i)
  }

  /** The first fence at or after `from`, or `|s|` when there is none. */
  function NextFence(s: string, from: nat): (k: nat)
    requires from <= |s|
    ensures from <= k <= |s|
    ensures forall i :: from <= i < k ==> !FenceAt(s, i)
    ensures k < |s| ==> FenceAt(s, k)
    decreases |s| - from
  {
    if from == |s| || FenceAt(s, from) then from else NextFence(s, from + 1)
  }

  /** Where the content of a block opened at `p` begins: after the fence, and after the tag if present. */
  function ContentStart(s: string, p: nat): (c: nat)
    requires FenceAt(s, p)
    ensures c <= |s|
    ensures c == p + 3 || c == p + 9
  {
    if TagAt(s, p + 3) then p + 9 else p + 3
  }

  /**
    One match of the pattern: an opening fence at `open`, the content from
    `start` to `close`, and a closing fence at `close`.
   */
  datatype Span = Span(open: nat, start: nat, close: nat)

  /** `m` is a match whose closing fence is the first one at or after its content start. */
  predicate IsMatch(s: string, m: Span) {
    && FenceAt(s, m.open)
    && m.start == ContentStart(s, m.open)
    && m.start <= m.close
    && FenceAt(s, m.close)
    && forall i :: m.start <= i < m.close ==> !FenceAt(s, i)
  }

  /** Matches at or after `from`, each starting after the previous one's closing fence. */
  predicate Ordered(s: string, ms: seq<Span>, from: nat) {
    && (forall i :: 0 <= i < |ms| ==> IsMatch(s, ms[i]) && from <= ms[i].open)
    && (forall i, j :: 0 <= i < j < |ms| ==> ms[i].close + 3 <= ms[j].open)
  }

  /**
    The match the pattern makes when tried at position `p`, if any: the
    lazy group stops at the first fence after the content start.
   */
  function MatchAt(s: string, p: nat): (r: Option<Span>)
    requires p <= |s|
    ensures r.Some? ==> r.value.open == p < r.value.start <= r.value.close <= |s| - 3
  {
    if FenceAt(s, p) then
      var start := ContentStart(s, p);
      var close := NextFence(s, start);
      if close < |s| then Some(Span(p, start, close)) else None
    else None
  }

  /** `re.findall` scanning `s` from position `from`. */
  function Scan(s: string, from: nat): (ms: seq<Span>)
    requires from <= |s|
    decreases |s| - from
  {
    if from == |s| then []
    else
      match MatchAt(s, from)
      case Some(m) => [m] + Scan(s, m.close + 3)
      case None => Scan(s, from + 1)
  }

  /** A span found at `p` is a match. */
  lemma MatchAtIsMatch(s: string, p: nat)
    requires p <= |s|
    ensures MatchAt(s, p).Some? ==> IsMatch(s, MatchAt(s, p).value)
  {
  }

  /**
    Trying the pattern at `p` succeeds exactly when a fence starts at `p` and
    another one starts after it ends: no fence can begin inside the `python`
    tag, so the optional tag never decides it.
   */
  lemma MatchAtIff(s: string, p: nat)
    requires p <= |s|
    ensures MatchAt(s, p).Some? <==> FenceAt(s, p) && exists q :: p + 3 <= q < |s| && FenceAt(s, q)
  {
    if FenceAt(s, p) && NextFence(s, ContentStart(s, p)) < |s| {
      assert FenceAt(s, NextFence(s, ContentStart(s, p)));
    }
  }

  lemma OrderedCons(s: string, m: Span, rest: seq<Span>, from: nat)
    requires IsMatch(s, m) && from <= m.open
    requires Ordered(s, rest, m.close + 3)
    ensures Ordered(s, [m] + rest, from)
  {
  }

  /** One step of the scan when the pattern matches at `from`. */
  lemma ScanHit(s: string, from: nat, m: Span)
    requires from < |s| && MatchAt(s, from) == Some(m)
    ensures Scan(s, from) == [m] + Scan(s, m.close + 3)
  {
  }

  /** One step of the scan when the pattern fails at `from`. */
  lemma ScanMiss(s: string, from: nat)
    requires from < |s| && MatchAt(s, from).None?
    ensures Scan(s, from) == Scan(s, from + 1)
  {
  }

  /** The step of `ScanOrdered` where the pattern matches at `from`. */
  lemma ScanOrderedHit(s: string, from: nat, m: Span)
    requires from < |s| && MatchAt(s, from) == Some(m)
    requires Ordered(s, Scan(s, m.close + 3), m.close + 3)
    ensures Ordered(s, Scan(s, from), from)
  {
    MatchAtIsMatch(s, from);
    ScanHit(s, from, m);
    OrderedCons(s, m, Scan(s, m.close + 3), from);
  }

  /** The step of `ScanOrdered` where the pattern fails at `from`. */
  lemma ScanOrderedMiss(s: string, from: nat)
    requires from < |s| && MatchAt(s, from).None?
    requires Ordered(s, Scan(s, from + 1), from + 1)
    ensures Ordered(s, Scan(s, from), from)
  {
    ScanMiss(s, from);
  }

  /** Every span the scan reports is a match, and they follow one another without overlap. */
  lemma {:induction false} ScanOrdered(s: string, from: nat)
    requires from <= |s|
    ensures Ordered(s, Scan(s, from), from)
    decreases |s| - from
  {
    if from < |s| {
      var r := MatchAt(s, from);
      if r.Some? {
        ScanOrdered(s, r.value.close + 3);
        ScanOrderedHit(s, from, r.value);
      } else {
        ScanOrdered(s, from + 1);
        ScanOrderedMiss(s, from);
      }
    }
  }

  /** Position `p` lies within one of the spans `ms`, from its opening fence to the end of its closing one. */
  predicate Covered(ms: seq<Span>, p: nat) {
    exists m :: m in ms && m.open <= p < m.close + 3
  }

  /** The step of `ScanComplete` where the pattern matches at `from`. */
  lemma ScanCompleteHit(s: string, from: nat, m: Span)
    requires from < |s| && MatchAt(s, from) == Some(m)
    requires forall p :: m.close + 3 <= p < |s| && MatchAt(s, p).Some? ==> Covered(Scan(s, m.close + 3), p)
    ensures forall p :: from <= p < |s| && MatchAt(s, p).Some? ==> Covered(Scan(s, from), p)
  {
    ScanHit(s, from, m);
    var ms := Scan(s, from);
    assert m in ms;
    forall p | m.close + 3 <= p < |s| && MatchAt(s, p).Some?
      ensures Covered(ms, p)
    {
      var m' :| m' in Scan(s, m.close + 3) && m'.open <= p < m'.close + 3;
      assert m' in ms;
    }
  }

  /** The step of `ScanComplete` where the pattern fails at `from`. */
  lemma ScanCompleteMiss(s: string, from: nat)
    requires from < |s| && MatchAt(s, from).None?
    requires forall p :: from + 1 <= p < |s| && MatchAt(s, p).Some? ==> Covered(Scan(s, from + 1), p)
    ensures forall p :: from <= p < |s| && MatchAt(s, p).Some? ==> Covered(Scan(s, from), p)
  {
    ScanMiss(s, from);
  }

  /**
    The scan skips no match: wherever the pattern could match on its own, a
    reported match starts there or an earlier one has already consumed the
    position.
   */
  lemma {:induction false} ScanComplete(s: string, from: nat)
    requires from <= |s|
    ensures forall p :: from <= p < |s| && MatchAt(s, p).Some? ==> Covered(Scan(s, from), p)
    decreases |s| - from
  {
    if from < |s| {
      match MatchAt(s, from)
      case Some(m) =>
        ScanComplete(s, m.close + 3);
        ScanCompleteHit(s, from, m);
      case None =>
        ScanComplete(s, from + 1);
        ScanCompleteMiss(s, from);
    }
  }

  /** Two fences, the second beginning after the first ends, at or after `from`. */
  predicate HasFencePair(s: string, from: nat) {
    exists p, q :: from <= p && p + 3 <= q < |s| && FenceAt(s, p) && FenceAt(s, q)
  }

  /** The scan finds nothing exactly when the text does not hold two separate fences. */
  lemma {:induction false} ScanEmptyIff(s: string, from: nat)
    requires from <= |s|
    ensures Scan(s, from) == [] <==> !HasFencePair(s, from)
    decreases |s| - from
  {
    var ms := Scan(s, from);
    if ms != [] {
      ScanOrdered(s, from);
      assert IsMatch(s, ms[0]);
      assert FenceAt(s, ms[0].open) && FenceAt(s, ms[0].close);
    }
    if HasFencePair(s, from) {
      var p, q :| from <= p && p + 3 <= q < |s| && FenceAt(s, p) && FenceAt(s, q);
      MatchAtIff(s, from);
      if p != from && MatchAt(s, from).None? {
        assert HasFencePair(s, from + 1);
        ScanEmptyIff(s, from + 1);
      }
    }
  }

  /** The raw content of each match, in order. */
  function Contents(s: string, ms: seq<Span>): (bs: seq<string>)
    requires forall i :: 0 <= i < |ms| ==> ms[i].start <= ms[i].close <= |s|
    ensures |bs| == |ms|
    ensures forall i :: 0 <= i < |ms| ==> bs[i] == s[ms[i].start..ms[i].close]
  {
    if ms == [] then [] else [s[ms[0].start..ms[0].close]] + Contents(s, ms[1..])
  }

  /** A fence inside a slice is a fence in the whole string. */
  lemma FenceInSlice(s: string, lo: nat, hi: nat, i: int)
    requires lo <= hi <= |s|
    requires FenceAt(s[lo..hi], i)
    ensures FenceAt(s, lo + i)
  {
    var w := s[lo..hi];
    assert w[i] == s[lo + i] && w[i + 1] == s[lo + i + 1] && w[i + 2] == s[lo + i + 2];
  }

  /** The content of a match holds no fence: the scan stops at the first one. */
  lemma MatchContentNoFence(s: string, m: Span)
    requires IsMatch(s, m)
    ensures m.close <= |s|
    ensures NoFence(s[m.start..m.close])
  {
    forall i | 0 <= i < m.close - m.start && FenceAt(s[m.start..m.close], i)
      ensures false
    {
      FenceInSlice(s, m.start, m.close, i);
    }
  }

  /** The group of every match the scan finds from `from` on, in document order. */
  function RawBlocksFrom(s: string, from: nat): seq<string>
    requires from <= |s|
  {
    ScanOrdered(s, from);
    Contents(s, Scan(s, from))
  }

  /** What `re.findall` returns: the group of every match, in document order. */
  function RawBlocks(s: string): seq<string> {
    RawBlocksFrom(s, 0)
  }

  /** No group holds a fence. */
  lemma RawBlocksNoFence(s: string, from: nat)
    requires from <= |s|
    ensures forall b :: b in RawBlocksFrom(s, from) ==> NoFence(b)
  {
    var ms := Scan(s, from);
    ScanOrdered(s, from);
    forall i | 0 <= i < |ms|
      ensures NoFence(s[ms[i].start..ms[i].close])
    {
      MatchContentNoFence(s, ms[i]);
    }
  }

  /** One block through the comprehension: its trimmed text, unless that is empty. */
  function KeepOne(x: string): seq<string> {
    var t := Trim(x);
    if t == [] then [] else [t]
  }

  /** The list comprehension: every block trimmed, blank ones dropped, order kept. */
  function KeepNonBlank(raw: seq<string>): seq<string> {
    if raw == [] then [] else KeepOne(raw[0]) + KeepNonBlank(raw[1..])
  }

  /** What is kept is non-empty and trimmed, and there is no more of it than there was. */
  lemma {:induction false} KeepNonBlankShape(raw: seq<string>)
    ensures |KeepNonBlank(raw)| <= |raw|
    ensures forall b :: b in KeepNonBlank(raw) ==> b != [] && IsTrimmed(b)
  {
    if raw != [] {
      var h, rest := KeepOne(raw[0]), KeepNonBlank(raw[1..]);
      assert |h| <= 1 && forall b :: b in h ==> b != [] && IsTrimmed(b);
      KeepNonBlankShape(raw[1..]);
      assert forall b :: b in h + rest ==> b in h || b in rest;
    }
  }

  /** Nothing is kept exactly when every block is whitespace only. */
  lemma {:induction false} KeepNonBlankEmptyIff(raw: seq<string>)
    ensures KeepNonBlank(raw) == [] <==> forall b :: b in raw ==> AllSpace(b)
  {
    if raw != [] {
      TrimEmptyIffAllSpace(raw[0]);
      KeepNonBlankEmptyIff(raw[1..]);
      assert forall b :: b in raw <==> b == raw[0] || b in raw[1..];
    }
  }

  /** Filtering works piece by piece: it keeps the order of the blocks it keeps. */
  lemma {:induction false} KeepNonBlankAppend(a: seq<string>, b: seq<string>)
    ensures KeepNonBlank(a + b) == KeepNonBlank(a) + KeepNonBlank(b)
  {
    if a == [] {
      assert a + b == b;
    } else {
      assert (a + b)[0] == a[0];
      assert (a + b)[1..] == a[1..] + b;
      KeepNonBlankAppend(a[1..], b);
      var h, x, y := KeepOne(a[0]), KeepNonBlank(a[1..]), KeepNonBlank(b);
      assert h + (x + y) == (h + x) + y;
    }
  }

  /** Trimming keeps a text free of fences: what it keeps is a slice. */
  lemma TrimNoFence(x: string)
    requires NoFence(x)
    ensures NoFence(Trim(x))
  {
    var t, l := Trim(x), LeadingSpace(x);
    TrimIsSlice(x);
    forall i | 0 <= i < |t| && FenceAt(t, i)
      ensures false
    {
      FenceInSlice(x, l, l + |t|, i);
    }
  }

  /** Filtering keeps blocks free of fences. */
  lemma {:induction false} KeepNonBlankNoFence(raw: seq<string>)
    requires forall b :: b in raw ==> NoFence(b)
    ensures forall b :: b in KeepNonBlank(raw) ==> NoFence(b)
  {
    if raw != [] {
      TrimNoFence(raw[0]);
      assert forall b :: b in raw[1..] ==> b in raw;
      KeepNonBlankNoFence(raw[1..]);
    }
  }

  /**
    The blocks the agent works with: non-empty, trimmed, fence-free, in
    document order; empty exactly when every fenced region is blank.
   */
  function ExtractBlocks(s: string): (bs: seq<string>)
    ensures forall b :: b in bs ==> b != [] && IsTrimmed(b) && NoFence(b)
    ensures bs == [] <==> forall b :: b in RawBlocks(s) ==> AllSpace(b)
  {
    RawBlocksNoFence(s, 0);
    KeepNonBlankShape(RawBlocks(s));
    KeepNonBlankNoFence(RawBlocks(s));
    KeepNonBlankEmptyIff(RawBlocks(s));
    KeepNonBlank(RawBlocks(s))
  }

  /** Text without two separate fences yields no block at all. */
  lemma NoFencePairNoBlocks(s: string)
    requires !HasFencePair(s, 0)
    ensures ExtractBlocks(s) == []
  {
    ScanEmptyIff(s, 0);
  }

  /** A block laid out as the prompt asks for it. */
  function Chunk(b: string): string {
    Fence + Tag + "\n" + b + "\n" + Fence
  }

  /** Text that holds no backtick, so no fence can open inside it. */
  predicate Plain(t: string) {
    forall i :: 0 <= i < |t| ==> t[i] != '`'
  }

  /**
    A reply made of fenced `python` blocks, each followed by its own stretch
    of text: the blank line before the next block, or whatever trails the last.
   */
  function Render(bs: seq<string>, gaps: seq<string>): string
    requires |gaps| == |bs|
  {
    if bs == [] then [] else Chunk(bs[0]) + gaps[0] + Render(bs[1..], gaps[1..])
  }

  /** The blocks `Render` can lay out so that extraction gets them back. */
  predicate Renderable(b: string) {
    b != [] && IsTrimmed(b) && NoFence(b)
  }

  /** Text without a backtick is passed over: no match can open inside it. */
  lemma {:induction false} ScanSkip(s: string, from: nat, to: nat)
    requires from <= to <= |s|
    requires forall i :: from <= i < to ==> s[i] != '`'
    ensures Scan(s, from) == Scan(s, to)
    decreases |s| - from
  {
    if from < to {
      ScanMiss(s, from);
      ScanSkip(s, from + 1, to);
    }
  }

  /** Leading text without a backtick contributes no block. */
  lemma RawBlocksSkip(s: string, to: nat)
    requires to <= |s|
    requires forall i :: 0 <= i < to ==> s[i] != '`'
    ensures RawBlocks(s) == RawBlocksFrom(s, to)
  {
    ScanSkip(s, 0, to);
  }

  /** Plain text between `pre` and `rest` contributes no block. */
  lemma GapSkip(pre: string, gap: string, rest: string)
    requires Plain(gap)
    ensures var s := pre + gap + rest;
      RawBlocksFrom(s, |pre|) == RawBlocksFrom(s, |pre + gap|)
  {
    var s := pre + gap + rest;
    assert forall i :: |pre| <= i < |pre| + |gap| ==> s[i] == gap[i - |pre|];
    ScanSkip(s, |pre|, |pre| + |gap|);
  }

  lemma ContentsCons(s: string, m: Span, ms: seq<Span>)
    requires m.start <= m.close <= |s|
    requires forall i :: 0 <= i < |ms| ==> ms[i].start <= ms[i].close <= |s|
    ensures Contents(s, [m] + ms) == [s[m.start..m.close]] + Contents(s, ms)
  {
    assert ([m] + ms)[1..] == ms;
  }

  /** The characters of a chunk placed after `pre`. */
  lemma ChunkChars(pre: string, b: string, rest: string)
    ensures var s, p := pre + Chunk(b) + rest, |pre|;
      && |s| == p + |b| + 14 + |rest|
      && FenceAt(s, p) && TagAt(s, p + 3) && s[p + 9] == '\n'
      && (forall k :: 0 <= k < |b| ==> s[p + 10 + k] == b[k])
      && s[p + 10 + |b|] == '\n'
      && FenceAt(s, p + 11 + |b|)
  {
    var s, p := pre + Chunk(b) + rest, |pre|;
    assert s == pre + (Fence + Tag) + ("\n" + b + "\n") + Fence + rest;
  }

  /** Inside a chunk the only fences are its opening and its closing one. */
  lemma ChunkNoInnerFence(pre: string, b: string, rest: string)
    requires NoFence(b)
    ensures var s, p := pre + Chunk(b) + rest, |pre|;
      forall i :: p + 9 <= i < p + 11 + |b| ==> !FenceAt(s, i)
  {
    var s, p := pre + Chunk(b) + rest, |pre|;
    ChunkChars(pre, b, rest);
    forall i | p + 9 <= i < p + 11 + |b| && i + 3 <= p + 10 + |b|
      ensures !FenceAt(s, i)
    {
      if i > p + 9 {
        var k := i - p - 10;
        assert s[i] == b[k] && s[i + 1] == b[k + 1] && s[i + 2] == b[k + 2];
        assert !FenceAt(b, k);
      }
    }
  }

  /** A chunk placed at `|pre|` makes exactly one match there, spanning the chunk. */
  lemma ChunkMatch(pre: string, b: string, rest: string)
    requires NoFence(b)
    ensures var s, p := pre + Chunk(b) + rest, |pre|;
      MatchAt(s, p) == Some(Span(p, p + 9, p + 11 + |b|))
  {
    var s, p := pre + Chunk(b) + rest, |pre|;
    ChunkChars(pre, b, rest);
    ChunkNoInnerFence(pre, b, rest);
    assert ContentStart(s, p) == p + 9;
    var k := NextFence(s, p + 9);
    assert k == p + 11 + |b|;
  }

  /** Filtering a block padded by newlines keeps the block itself. */
  lemma KeepPadded(b: string, raw: seq<string>)
    requires b != [] && IsTrimmed(b)
    ensures KeepNonBlank(["\n" + b + "\n"] + raw) == [b] + KeepNonBlank(raw)
  {
    TrimPadded("\n", b, "\n");
    assert (["\n" + b + "\n"] + raw)[1..] == raw;
  }

  /** Where the pattern matches, the raw blocks are that match's group followed by the rest of the scan's. */
  lemma RawBlocksHit(s: string, from: nat, m: Span)
    requires from < |s| && MatchAt(s, from) == Some(m)
    ensures RawBlocksFrom(s, from) == [s[m.start..m.close]] + RawBlocksFrom(s, m.close + 3)
  {
    ScanHit(s, from, m);
    ScanOrdered(s, m.close + 3);
    ContentsCons(s, m, Scan(s, m.close + 3));
  }

  /** The group of a chunk's match is its block padded by the two newlines. */
  lemma ChunkGroup(pre: string, b: string, rest: string)
    ensures var s, p := pre + Chunk(b) + rest, |pre|;
      && |pre + Chunk(b)| == p + 14 + |b|
      && p + 14 + |b| <= |s|
      && s[p + 9..p + 11 + |b|] == "\n" + b + "\n"
  {
    var s := pre + Chunk(b) + rest;
    assert s == pre + (Fence + Tag) + ("\n" + b + "\n") + Fence + rest;
  }

  /** A match whose group is a padded block contributes that group, then the scan resumes after it. */
  lemma RawBlocksPadded(s: string, p: nat, b: string)
    requires p < |s| && MatchAt(s, p) == Some(Span(p, p + 9, p + 11 + |b|))
    requires s[p + 9..p + 11 + |b|] == "\n" + b + "\n"
    ensures RawBlocksFrom(s, p) == ["\n" + b + "\n"] + RawBlocksFrom(s, p + 14 + |b|)
  {
    RawBlocksHit(s, p, Span(p, p + 9, p + 11 + |b|));
  }

  /** The scan at a chunk yields its padded block, then resumes after the chunk. */
  lemma RawBlocksChunk(pre: string, b: string, rest: string)
    requires NoFence(b)
    ensures var s, p := pre + Chunk(b) + rest, |pre|;
      RawBlocksFrom(s, p) == ["\n" + b + "\n"] + RawBlocksFrom(s, |pre + Chunk(b)|)
  {
    ChunkMatch(pre, b, rest);
    ChunkGroup(pre, b, rest);
    RawBlocksPadded(pre + Chunk(b) + rest, |pre|, b);
  }

  /** One chunk in front of rendered blocks adds its block in front of what they give. */
  lemma ExtractChunk(pre: string, b: string, rest: string, tail: seq<string>)
    requires Renderable(b)
    requires KeepNonBlank(RawBlocksFrom(pre + Chunk(b) + rest, |pre + Chunk(b)|)) == tail
    ensures KeepNonBlank(RawBlocksFrom(pre + Chunk(b) + rest, |pre|)) == [b] + tail
  {
    RawBlocksChunk(pre, b, rest);
    KeepPadded(b, RawBlocksFrom(pre + Chunk(b) + rest, |pre + Chunk(b)|));
  }

  lemma RenderCons(pre: string, bs: seq<string>, gaps: seq<string>)
    requires bs != [] && |gaps| == |bs|
    ensures pre + Render(bs, gaps) == (pre + Chunk(bs[0]) + gaps[0]) + Render(bs[1..], gaps[1..])
  {
  }

  /** Every block is renderable and every gap plain, checked head first. */
  predicate WellLaid(bs: seq<string>, gaps: seq<string>) {
    && |gaps| == |bs|
    && (bs != [] ==> Renderable(bs[0]) && Plain(gaps[0]) && WellLaid(bs[1..], gaps[1..]))
  }

  lemma {:induction false} WellLaidIff(bs: seq<string>, gaps: seq<string>)
    ensures WellLaid(bs, gaps) <==>
      |gaps| == |bs| && forall i :: 0 <= i < |bs| ==> Renderable(bs[i]) && Plain(gaps[i])
  {
    if bs != [] && |gaps| == |bs| {
      WellLaidIff(bs[1..], gaps[1..]);
      assert forall i :: 1 <= i < |bs| ==> bs[i] == bs[1..][i - 1] && gaps[i] == gaps[1..][i - 1];
    }
  }

  /** One chunk and the plain text after it add the chunk's block in front of what follows. */
  lemma ExtractChunkGap(pre: string, b: string, gap: string, rest: string, tail: seq<string>)
    requires Renderable(b) && Plain(gap)
    requires KeepNonBlank(RawBlocksFrom(pre + Chunk(b) + gap + rest, |pre + Chunk(b) + gap|)) == tail
    ensures KeepNonBlank(RawBlocksFrom(pre + Chunk(b) + gap + rest, |pre|)) == [b] + tail
  {
    Regroup(pre, Chunk(b), gap, rest);
    GapSkip(pre + Chunk(b), gap, rest);
    ExtractChunk(pre, b, gap + rest, tail);
  }

  /**
    Regrouping a concatenation of four strings. Kept apart from its one caller,
    where the same fact about the concrete strings is much costlier to prove.
   */
  lemma Regroup(a: string, c: string, g: string, r: string)
    ensures a + c + g + r == a + c + (g + r)
  {
  }

  /** The inductive step of `ExtractRenderFrom`, from the blocks after the first chunk and its gap to all of them. */
  lemma ExtractRenderStep(pre: string, bs: seq<string>, gaps: seq<string>)
    requires bs != [] && |gaps| == |bs| && Renderable(bs[0]) && Plain(gaps[0])
    requires var mid := pre + Chunk(bs[0]) + gaps[0];
      KeepNonBlank(RawBlocksFrom(mid + Render(bs[1..], gaps[1..]), |mid|)) == bs[1..]
    ensures KeepNonBlank(RawBlocksFrom(pre + Render(bs, gaps), |pre|)) == bs
  {
    RenderCons(pre, bs, gaps);
    ExtractChunkGap(pre, bs[0], gaps[0], Render(bs[1..], gaps[1..]), bs[1..]);
    assert bs == [bs[0]] + bs[1..];
  }

  /** Rendered blocks after `pre` are extracted back, whatever `pre` holds. */
  lemma {:induction false} ExtractRenderFrom(pre: string, bs: seq<string>, gaps: seq<string>)
    requires WellLaid(bs, gaps)
    ensures KeepNonBlank(RawBlocksFrom(pre + Render(bs, gaps), |pre|)) == bs
    decreases |bs|
  {
    if bs == [] {
      assert pre + Render(bs, gaps) == pre;
    } else {
      ExtractRenderFrom(pre + Chunk(bs[0]) + gaps[0], bs[1..], gaps[1..]);
      ExtractRenderStep(pre, bs, gaps);
    }
  }

  /**
    Laying out blocks as the prompt asks, after any prose and with any text
    between and after them, as long as none of it holds a backtick, and
    extracting them again gives the blocks back.
   */
  lemma ExtractRender(prose: string, bs: seq<string>, gaps: seq<string>)
    requires Plain(prose)
    requires |gaps| == |bs|
    requires forall i :: 0 <= i < |bs| ==> Renderable(bs[i]) && Plain(gaps[i])
    ensures ExtractBlocks(prose + Render(bs, gaps)) == bs
  {
    RawBlocksSkip(prose + Render(bs, gaps), |prose|);
    WellLaidIff(bs, gaps);
    ExtractRenderFrom(prose, bs, gaps);
  }
}

=== FILE: text.dfy ===
/**
  ASCII string primitives the agent relies on: Python's `str.strip()`,
  `str.lower()`, `str.startswith` and the first piece of `str.split(sep)`.
  Only ASCII is modelled: whitespace is what `str.isspace()` accepts below
  U+0080, and lower-casing maps `A`-`Z` alone.
 */
module Text {

  /** `str.isspace()` on ASCII: TAB, LF, VT, FF, CR, the separators U+001C-U+001F, and SPACE. */
  predicate IsSpace(c: char) {
    c == ' ' || ('\t' <= c <= '\r') || ('\U{1C}' <= c <= '\U{1F}')
  }

  predicate IsUpper(c: char) {
    'A' <= c <= 'Z'
  }

  predicate AllSpace(s: string) {
    forall i :: 0 <= i < |s| ==> IsSpace(s[i])
  }

  /** Neither end of `s` is whitespace: what `strip()` leaves behind. */
  predicate IsTrimmed(s: string) {
    s == [] || (!IsSpace(s[0]) && !IsSpace(s[|s| - 1]))
  }

  /** `s[i..j]` is a slice of `s` whose cut-off ends are whitespace only. */
  predicate StripsTo(s: string, i: nat, j: nat) {
    i <= j <= |s| && AllSpace(s[..i]) && AllSpace(s[j..])
  }

  /** `str.lstrip()` */
  function TrimStart(s: string): (r: string)
    ensures |r| <= |s| && r == s[|s| - |r|..]
    ensures AllSpace(s[..|s| - |r|])
    ensures r == [] || !IsSpace(r[0])
    decreases |s|
  {
    if |s| > 0 && IsSpace(s[0]) then
      var r := TrimStart(s[1..]);
      assert s[..|s| - |r|] == [s[0]] + s[1..][..|s| - 1 - |r|];
      r
    else s
  }

  /** `str.rstrip()` */
  function TrimEnd(s: string): (r: string)
    ensures |r| <= |s| && r == s[..|r|]
    ensures AllSpace(s[|r|..])
    ensures r == [] || !IsSpace(r[|r| - 1])
    decreases |s|
  {
    if |s| > 0 && IsSpace(s[|s| - 1]) then
      var r := TrimEnd(s[..|s| - 1]);
      assert s[|r|..] == s[..|s| - 1][|r|..] + [s[|s| - 1]];
      r
    else s
  }

  /** How many whitespace characters `strip()` cuts from the front of `s`. */
  function LeadingSpace(s: string): (n: nat)
    ensures n <= |s| && AllSpace(s[..n])
  {
    |s| - |TrimStart(s)|
  }

  /** `str.strip()`: whitespace cut from both ends. */
  function Trim(s: string): (r: string)
    ensures IsTrimmed(r)
    ensures |r| <= |s|
  {
    TrimEnd(TrimStart(s))
  }

  /** What `strip()` keeps is the slice of `s` between a whitespace prefix and a whitespace suffix. */
  lemma TrimIsSlice(s: string)
    ensures StripsTo(s, LeadingSpace(s), LeadingSpace(s) + |Trim(s)|)
    ensures Trim(s) == s[LeadingSpace(s)..LeadingSpace(s) + |Trim(s)|]
  {
    var t := TrimStart(s);
    var r := TrimEnd(t);
    var i := |s| - |t|;
    assert t == s[i..];
    assert r == t[..|r|];
    assert r == s[i..i + |r|];
    assert s[i + |r|..] == t[|r|..];
  }

  /** `strip()` removes nothing exactly when there is nothing to remove; so it is idempotent. */
  lemma TrimFixpoint(s: string)
    ensures Trim(s) == s <==> IsTrimmed(s)
  {
    TrimIsSlice(s);
  }

  /** `strip()` yields the empty string exactly for all-whitespace input. */
  lemma TrimEmptyIffAllSpace(s: string)
    ensures Trim(s) == [] <==> AllSpace(s)
  {
    TrimIsSlice(s);
  }

  function LowerChar(c: char): (r: char)
    ensures !IsUpper(r)
    ensures IsSpace(r) <==> IsSpace(c)
    ensures !IsUpper(c) ==> r == c
    ensures IsUpper(c) ==> r != c && 'a' <= r <= 'z'
  {
    if IsUpper(c) then (c as int + 32) as char else c
  }

  /** `str.lower()` on ASCII: every upper-case letter replaced, everything else kept in place. */
  function Lower(s: string): (r: string)
    ensures |r| == |s|
    ensures forall i :: 0 <= i < |r| ==> !IsUpper(r[i])
  {
    if s == [] then [] else [LowerChar(s[0])] + Lower(s[1..])
  }

  /** Lower-casing works character by character. */
  lemma {:induction false} LowerPointwise(s: string)
    ensures forall i :: 0 <= i < |s| ==> Lower(s)[i] == LowerChar(s[i])
  {
    if s != [] {
      LowerPointwise(s[1..]);
    }
  }

  /** Lower-casing keeps whitespace where it was, so a trimmed string stays trimmed. */
  lemma LowerKeepsTrimmed(s: string)
    requires IsTrimmed(s)
    ensures IsTrimmed(Lower(s))
  {
    LowerPointwise(s);
  }

  /** Lower-casing changes nothing in a string without upper-case letters. */
  lemma LowerFixpoint(s: string)
    requires forall i :: 0 <= i < |s| ==> !IsUpper(s[i])
    ensures Lower(s) == s
  {
    LowerPointwise(s);
  }

  predicate StartsWith(s: string, prefix: string) {
    |prefix| <= |s| && s[..|prefix|] == prefix
  }

  /** `sep` occurs in `s` starting at index `i`. */
  predicate OccursAt(s: string, sep: string, i: int) {
    0 <= i && i + |sep| <= |s| && s[i..i + |sep|] == sep
  }

  /** The least index at or after `from` where `sep` occurs in `s`, or `|s|` when there is none. */
  function IndexFrom(s: string, sep: string, from: nat): (k: nat)
    requires sep != []
    requires from <= |s|
    ensures from <= k <= |s|
    ensures forall i :: from <= i < k ==> !OccursAt(s, sep, i)
    ensures k < |s| ==> OccursAt(s, sep, k)
    decreases |s| - from
  {
    if from == |s| || OccursAt(s, sep, from) then from else IndexFrom(s, sep, from + 1)
  }

  /**
    `s.split(sep)[0]`: the part of `s` before the first occurrence of `sep`,
    or all of `s` when `sep` does not occur. Python refuses an empty separator.
   */
  function BeforeFirst(s: string, sep: string): (r: string)
    requires sep != []
    ensures StartsWith(s, r)
    ensures forall i :: 0 <= i < |r| ==> !OccursAt(s, sep, i)
    ensures r == s || OccursAt(s, sep, |r|)
    ensures r == s <==> forall i :: !OccursAt(s, sep, i)
  {
    s[..IndexFrom(s, sep, 0)]
  }

  /** No proper suffix of `sep` is also a prefix of it, so two occurrences can never overlap. */
  predicate Unbordered(sep: string) {
    forall k :: 0 < k < |sep| ==> sep[k..] != sep[..|sep| - k]
  }

  /** An occurrence that starts in `a` and runs into `sep` would give `sep` a border. */
  lemma NoStraddle(a: string, sep: string, t: string, i: int)
    requires Unbordered(sep)
    requires |a| - |sep| < i < |a|
    ensures !OccursAt(a + sep + t, sep, i)
  {
    var s, n, k := a + sep + t, |sep|, |a| - i;
    if 0 <= i {
      var w := s[i..i + n];
      assert w[k..] == sep[..n - k];
    }
  }

  /** An occurrence that ends inside `a` is one in `a` itself. */
  lemma OccursInPrefix(a: string, t: string, sep: string, i: int)
    requires 0 <= i && i + |sep| <= |a|
    ensures OccursAt(a + t, sep, i) <==> OccursAt(a, sep, i)
  {
    assert (a + t)[i..i + |sep|] == a[i..i + |sep|];
  }

  /**
    The part before the first separator, when the text is `a`, a separator
    and anything else: exactly `a`, provided `a` holds no separator and the
    separator cannot overlap itself.
   */
  lemma BeforeFirstFound(a: string, sep: string, t: string)
    requires sep != [] && Unbordered(sep)
    requires forall i :: !OccursAt(a, sep, i)
    ensures BeforeFirst(a + sep + t, sep) == a
  {
    var s := a + sep + t;
    assert s[|a|..|a| + |sep|] == sep;
    forall i | 0 <= i < |a|
      ensures !OccursAt(s, sep, i)
    {
      if i + |sep| <= |a| {
        OccursInPrefix(a, sep + t, sep, i);
        assert s == a + (sep + t);
      } else {
        NoStraddle(a, sep, t, i);
      }
    }
    assert OccursAt(s, sep, |a|);
    var k := IndexFrom(s, sep, 0);
    assert k == |a|;
    assert s[..|a|] == a;
  }

  /** `lstrip()` removes exactly a whitespace prefix that is followed by a non-space. */
  lemma {:induction false} TrimStartOf(pre: string, rest: string)
    requires AllSpace(pre)
    requires rest == [] || !IsSpace(rest[0])
    ensures TrimStart(pre + rest) == rest
    decreases |pre|
  {
    if pre == [] {
      assert pre + rest == rest;
    } else {
      assert (pre + rest)[1..] == pre[1..] + rest;
      TrimStartOf(pre[1..], rest);
    }
  }

  /** `rstrip()` removes exactly a whitespace suffix that follows a non-space. */
  lemma {:induction false} TrimEndOf(b: string, post: string)
    requires AllSpace(post)
    requires b == [] || !IsSpace(b[|b| - 1])
    ensures TrimEnd(b + post) == b
    decreases |post|
  {
    if post == [] {
      assert b + post == b;
    } else {
      assert (b + post)[..|b + post| - 1] == b + post[..|post| - 1];
      TrimEndOf(b, post[..|post| - 1]);
    }
  }

  /** Whitespace padding around a non-empty trimmed string is exactly what `strip()` removes. */
  lemma TrimPadded(pre: string, b: string, post: string)
    requires AllSpace(pre) && AllSpace(post)
    requires b != [] && IsTrimmed(b)
    ensures Trim(pre + b + post) == b
  {
    assert pre + b + post == pre + (b + post);
    TrimStartOf(pre, b + post);
    TrimEndOf(b, post);
  }

}

=== FILE: tiers.dfy ===
/**
  Confidence tiers of a rename mapping (source_code/agents/agents.py,
  lines 253 and 259). The tier of a new column name is read off its
  prefix: `unknown_` marks a name with no reasonable interpretation,
  `ambiguous_` one with several, and a name with neither prefix was
  mapped confidently.
 */
module Tiers {
  import opened Text
  import opened Dicts

  const AmbiguousPrefix: string := "ambiguous_"
  const UnknownPrefix: string := "unknown_"

  datatype Tier = Confident | Ambiguous | Unknown

  /** The two prefixes begin with different letters, so no name carries both. */
  lemma PrefixesExclusive(v: string)
    ensures !(StartsWith(v, AmbiguousPrefix) && StartsWith(v, UnknownPrefix))
  {
    if StartsWith(v, AmbiguousPrefix) {
      assert v[0] == AmbiguousPrefix[0] == 'a';
    }
  }

  /** The tier a mapped name announces by its prefix. */
  function TierOf(v: string): (t: Tier)
    ensures t == Unknown <==> StartsWith(v, UnknownPrefix)
    ensures t == Ambiguous <==> StartsWith(v, AmbiguousPrefix)
    ensures t == Confident <==> !(StartsWith(v, AmbiguousPrefix) || StartsWith(v, UnknownPrefix))
  {
    PrefixesExclusive(v);
    if StartsWith(v, UnknownPrefix) then Unknown
    else if StartsWith(v, AmbiguousPrefix) then Ambiguous
    else Confident
  }

  /** The values of a dict, in the order of its keys: what `.values()` iterates over. */
  function ValuesOf(keys: seq<string>, entries: map<string, string>): (vs: seq<string>)
    requires forall k :: k in keys ==> k in entries
    ensures |vs| == |keys|
    ensures forall i :: 0 <= i < |keys| ==> vs[i] == entries[keys[i]]
  {
    if keys == [] then [] else [entries[keys[0]]] + ValuesOf(keys[1..], entries)
  }

  function Values(d: PyDict): seq<string> {
    ValuesOf(d.keys, d.entries)
  }

  /** The keys whose value is in tier `t`, in key order. */
  function KeysInTier(keys: seq<string>, entries: map<string, string>, t: Tier): (r: seq<string>)
    requires forall k :: k in keys ==> k in entries
    ensures |r| <= |keys|
    ensures forall k :: k in r <==> k in keys && TierOf(entries[k]) == t
    ensures Distinct(keys) ==> Distinct(r)
  {
    if keys == [] then []
    else
      var rest := KeysInTier(keys[1..], entries, t);
      if TierOf(entries[keys[0]]) == t then [keys[0]] + rest else rest
  }

  /** Past a distinct head, the first place of a later key is one more than in the tail. */
  lemma FirstIndexTail(keys: seq<string>, x: string)
    requires keys != [] && x in keys[1..] && x != keys[0]
    ensures FirstIndex(keys, x) == 1 + FirstIndex(keys[1..], x)
  {
  }

  /** Every key of `rest`, drawn from the tail, sits one place later in the whole list. */
  lemma OrderShift(keys: seq<string>, rest: seq<string>)
    requires keys != [] && forall x :: x in rest ==> x in keys[1..] && x != keys[0]
    ensures forall x :: x in rest ==> x in keys && FirstIndex(keys, x) == 1 + FirstIndex(keys[1..], x)
  {
    forall x | x in rest
      ensures x in keys && FirstIndex(keys, x) == 1 + FirstIndex(keys[1..], x)
    {
      FirstIndexTail(keys, x);
    }
  }

  /** Keys ordered within the tail stay ordered within the whole list. */
  lemma OrderTail(keys: seq<string>, rest: seq<string>)
    requires keys != [] && forall x :: x in rest ==> x in keys[1..] && x != keys[0]
    requires FirstAppearanceOrder(rest, keys[1..])
    ensures forall x :: x in rest ==> x in keys
    ensures FirstAppearanceOrder(rest, keys)
  {
    OrderShift(keys, rest);
  }

  /** Keys ordered within the tail stay ordered behind the head of the list. */
  lemma OrderCons(keys: seq<string>, rest: seq<string>)
    requires keys != [] && forall x :: x in rest ==> x in keys[1..] && x != keys[0]
    requires FirstAppearanceOrder(rest, keys[1..])
    ensures forall x :: x in [keys[0]] + rest ==> x in keys
    ensures FirstAppearanceOrder([keys[0]] + rest, keys)
  {
    OrderShift(keys, rest);
    var r := [keys[0]] + rest;
    forall i, j | 0 <= i < j < |r|
      ensures FirstIndex(keys, r[i]) < FirstIndex(keys, r[j])
    {
      assert r[j] == rest[j - 1];
      if i > 0 {
        assert r[i] == rest[i - 1];
      }
    }
  }

  /** The keys in tier `t` are listed in the order the mapping holds them. */
  lemma {:induction false} KeysInTierOrder(keys: seq<string>, entries: map<string, string>, t: Tier)
    requires forall k :: k in keys ==> k in entries
    requires Distinct(keys)
    ensures FirstAppearanceOrder(KeysInTier(keys, entries, t), keys)
  {
    if keys != [] {
      var rest := KeysInTier(keys[1..], entries, t);
      KeysInTierOrder(keys[1..], entries, t);
      if TierOf(entries[keys[0]]) == t {
        OrderCons(keys, rest);
      } else {
        OrderTail(keys, rest);
      }
    }
  }

  /** How many of the values are in tier `t`. */
  function CountTier(vs: seq<string>, t: Tier): (n: nat)
    ensures n <= |vs|
    ensures n == 0 <==> forall i :: 0 <= i < |vs| ==> TierOf(vs[i]) != t
    ensures n == |vs| <==> forall i :: 0 <= i < |vs| ==> TierOf(vs[i]) == t
  {
    if vs == [] then 0
    else (if TierOf(vs[0]) == t then 1 else 0) + CountTier(vs[1..], t)
  }

  /** `unknown_fields`: the keys of the mapping whose value carries the `unknown_` prefix, in key order. */
  function UnknownFields(d: PyDict): (r: seq<string>)
    ensures forall k :: k in r <==> k in d.entries && StartsWith(d.entries[k], UnknownPrefix)
    ensures Distinct(r)
    ensures FirstAppearanceOrder(r, d.keys)
  {
    KeysInTierOrder(d.keys, d.entries, Unknown);
    KeysInTier(d.keys, d.entries, Unknown)
  }

  /** `confident_count`: how many values carry neither prefix. */
  function ConfidentCount(d: PyDict): (n: nat)
    ensures n <= |d.keys|
    ensures n == |d.keys| <==> forall k :: k in d.entries ==> TierOf(d.entries[k]) == Confident
  {
    var vs := Values(d);
    assert forall k :: k in d.entries ==> exists i :: 0 <= i < |d.keys| && d.keys[i] == k;
    CountTier(vs, Confident)
  }

  /** Every value is in exactly one tier, so the three counts add up to the size of the mapping. */
  lemma {:induction false} TierCountsPartition(vs: seq<string>)
    ensures CountTier(vs, Confident) + CountTier(vs, Ambiguous) + CountTier(vs, Unknown) == |vs|
  {
    if vs != [] {
      TierCountsPartition(vs[1..]);
    }
  }

  /** Counting the values of a tier counts the keys that map into it. */
  lemma {:induction false} CountTierKeys(keys: seq<string>, entries: map<string, string>, t: Tier)
    requires forall k :: k in keys ==> k in entries
    ensures CountTier(ValuesOf(keys, entries), t) == |KeysInTier(keys, entries, t)|
  {
    if keys != [] {
      assert ValuesOf(keys, entries)[1..] == ValuesOf(keys[1..], entries);
      CountTierKeys(keys[1..], entries, t);
    }
  }

  /** A list without repeats has as many elements as the set of its elements. */
  lemma {:induction false} DistinctCardinality(s: seq<string>)
    requires Distinct(s)
    ensures |set x | x in s| == |s|
  {
    if s != [] {
      DistinctCardinality(s[1..]);
      var all, rest := set x | x in s, set x | x in s[1..];
      assert all == rest + {s[0]};
      assert s[0] !in rest;
    }
  }

  /** The set of keys in tier `t`, independent of any ordering. */
  function TierKeys(d: PyDict, t: Tier): set<string> {
    set k | k in d.entries && TierOf(d.entries[k]) == t
  }

  /** The three tiers divide the keys of the mapping between them. */
  lemma TierKeysPartition(d: PyDict)
    ensures TierKeys(d, Confident) + TierKeys(d, Ambiguous) + TierKeys(d, Unknown) == d.entries.Keys
    ensures TierKeys(d, Confident) !! TierKeys(d, Ambiguous)
    ensures TierKeys(d, Confident) !! TierKeys(d, Unknown)
    ensures TierKeys(d, Ambiguous) !! TierKeys(d, Unknown)
  {
  }

  /** The keys in tier `t`, listed in key order, are exactly the set of them. */
  lemma KeysInTierSize(d: PyDict, t: Tier)
    ensures |KeysInTier(d.keys, d.entries, t)| == |TierKeys(d, t)|
  {
    var r := KeysInTier(d.keys, d.entries, t);
    DistinctCardinality(r);
    assert (set x | x in r) == TierKeys(d, t);
  }

  /** The number of unknown fields reported equals the number of values with the `unknown_` prefix. */
  lemma UnknownFieldsCount(d: PyDict)
    ensures |UnknownFields(d)| == CountTier(Values(d), Unknown)
    ensures |UnknownFields(d)| == |TierKeys(d, Unknown)|
  {
    CountTierKeys(d.keys, d.entries, Unknown);
    KeysInTierSize(d, Unknown);
  }

  /** The confident count is the number of keys whose value carries neither prefix. */
  lemma ConfidentCountKeys(d: PyDict)
    ensures ConfidentCount(d) == |TierKeys(d, Confident)|
  {
    CountTierKeys(d.keys, d.entries, Confident);
    KeysInTierSize(d, Confident);
  }

  /** Confident, ambiguous and unknown counts add up to the size of the mapping. */
  lemma ReportedCountsPartition(d: PyDict)
    ensures ConfidentCount(d) + CountTier(Values(d), Ambiguous) + |UnknownFields(d)| == |d.entries|
  {
    TierCountsPartition(Values(d));
    UnknownFieldsCount(d);
    DistinctCardinality(d.keys);
    assert (set x | x in d.keys) == d.entries.Keys;
  }
}

=== FILE: wrappers.dfy ===
/** The optional value a failing evaluation or an absent state key is read as. */
module Wrappers {

  datatype Option<+T> = None | Some(value: T) {

    /** The wrapped value, or `default` when there is none (Python's `dict.get(key, default)`). */
    function GetOr(default: T): T {
      match this
      case Some(v) => v
      case None => default
    }
  }
}
